=== FILE: README.md ===
# PsychonautWiki substance viewer: a Dafny model of its page logic

The application is a small web page inside a native WebView. The user types a substance name. The page sends one GraphQL query to the PsychonautWiki API and shows the first substance it gets back in a card with six tabs: Dosage, Duration, Effects, Interactions, Toxicity and Images. All of the logic is in `Resources/script.js`. This project models the parts of that script that decide what the page shows.

- **Response classification** (`Transport`). One exchange with the API becomes either the first substance or the text for the error slot. The checks run in the script's order: the HTTP status first, then a GraphQL `errors` member, then the `substances` list. Exceptions raised by the browser are modelled too: `fetch` rejecting, a body that is not JSON, an empty `errors` array (JavaScript treats it as truthy, so `errors[0].message` throws), and a null `data`.
- **The page state** (`Page.Page`). This class holds the loading indicator, the error slot (visible flag and text), the results container and the `active` class of each tab and content pane. `fetchSubstanceData`, `renderSubstanceData`, the tab click handler, the search button and the Enter key are methods on it. A ghost event log records the `showLoading` / `hideError` / `showError` calls in order, so the `finally` clause is part of the contract.
- **The tabs' content** (`Dosage`, `Durations`, `Listings`, `Render`). Dosage rows and their cells, duration phase rows in their fixed order, bioavailability text, and the listed panes with their placeholders. The `forEach` loops that append rows are methods. Each method is proved equal to a specification function, and the properties are proved about those functions.
- **JavaScript string behaviour** (`JsText`): `${null}` is `"null"`, the decimal text of a status code, and `String.prototype.trim`.

Numbers stay abstract. A numeric field is a `real`, and the page is given the browser's Number-to-String conversion as a parameter `show`. The only thing known about `show` is the shape of its result (`NumText`): non-empty, made only of digits and `.`, `-`, `+`, `e`, and starting with a digit or with `-` and a digit. That is enough to prove that a present number never renders as `-` or as `null`.

What the script outputs in four cases that are easy to get wrong:
- Bioavailability reads `min% - max%`, `≥ min%` or `≤ max%`, with the spaces.
- An empty images list shows "No images available.", like the other tabs.
- A non-ok response's message carries only the status code. The body text only goes to the console.
- A dose band that is present but has a null bound is not a placeholder: the null bound is interpolated as the text `null`, e.g. `null-10`. A duration phase with a null bound is left out of the table instead. In a phase row only a null `units` is interpolated as `null`.

## Model

| member | source | states |
|---|---|---|
| JsText.NumberOrNull | Resources/script.js:339-341 | A null number interpolates as `"null"`; a present one as number text, never `-` |
| JsText.StringOrNull | Resources/script.js:400 | A null string interpolates as `"null"`, a present one as itself |
| JsText.Decimal | Resources/script.js:109 | The status text is a non-empty string of digits with no leading zero |
| JsText.DecimalRoundTrip | Resources/script.js:109 | Reading the decimal text back gives the status code |
| JsText.TrimStartDropsSpace | Resources/script.js:600 | Everything dropped from the front of the input is white space |
| JsText.TrimEndDropsSpace | Resources/script.js:600 | Everything dropped from the back of the input is white space |
| JsText.Trim | Resources/script.js:600 | `trim()`: the leading white space is dropped, then the trailing white space. It has no contract of its own; TrimSlice, TrimEnds, TrimEmptyIff and TrimIdempotent state what it keeps |
| JsText.TrimSlice | Resources/script.js:600 | `trim()` gives the slice of the input after its leading white space; everything cut off on both sides is white space |
| JsText.TrimEnds | Resources/script.js:600 | A non-empty trimmed name neither starts nor ends with white space |
| JsText.TrimEmptyIff | Resources/script.js:600-601 | The trimmed input is empty exactly when the input is all white space, so only then is the search skipped |
| JsText.TrimIdempotent | Resources/script.js:600 | Trimming twice is trimming once |
| Lists.ListPane | Resources/script.js:470-484 | A null or empty list gives the placeholder; otherwise one entry per element, in order |
| Lists.Filter | Resources/script.js:335-336 | The kept elements are exactly the input elements that pass the test |
| Lists.FilterAppend | Resources/script.js:335-336 | Filtering keeps the input order: it distributes over concatenation |
| Lists.ForEachAppend | Resources/script.js:474-479 | The `forEach` loop appends `f` of each element, in order |
| Lists.BuildListPane | Resources/script.js:470-484 | The pane built by the loop equals `ListPane` |
| Dosage.ThresholdCell | Resources/script.js:338 | The threshold cell is `-` exactly when the threshold is null; otherwise it is the threshold's own number text |
| Dosage.BandCell | Resources/script.js:339-341 | A light/common/strong cell is `-` exactly when the band is absent; a band with both bounds renders only number characters |
| Dosage.HeavyCell | Resources/script.js:342 | The heavy cell is `-` exactly when heavy is null; otherwise `>` followed by number text |
| Dosage.BandCellText | Resources/script.js:339-341 | A band with both bounds reads exactly `<min>-<max>`: the minimum's number text, a hyphen, then the maximum's |
| Dosage.HeavyCellText | Resources/script.js:342 | A heavy dose reads exactly `>` followed by that dose's number text |
| Dosage.UnitsCell | Resources/script.js:337 | The units cell is empty exactly when units are null or empty; otherwise it is the units |
| Dosage.HeavyNeverNull | Resources/script.js:342 | The heavy cell is never `>null` |
| Dosage.BandWithNullBound | Resources/script.js:339-341 | A present band with a null minimum renders `null-<max>`, not the placeholder |
| Dosage.DoseRowOf | Resources/script.js:336-355 | A route's row carries the route's name; its threshold, light, common, strong, heavy and units columns are exactly ThresholdCell, BandCell (one per band), HeavyCell and UnitsCell of that route's dose, so the cell contracts and text lemmas hold of every row |
| Dosage.DosageRows | Resources/script.js:335-356 | The `tableHTML +=` loop as a function of the routes seen so far; no more rows than routes (one row per dosed route is DosageRowsMatchRoutes) |
| Dosage.DosageRowsMatchRoutes | Resources/script.js:335-356 | One row per route that has a dose, built from that route, in input order; routes without a dose are skipped |
| Dosage.DosagePane | Resources/script.js:320-362 | The tab shows "No dosage information available." exactly when `roas` is null or empty |
| Dosage.NoDosedRouteGivesEmptyTable | Resources/script.js:320-362 | Listed routes that all lack a dose give a table with no rows and no placeholder |
| Dosage.BuildDosageRows | Resources/script.js:335-356 | The `tableHTML +=` loop produces exactly the specified rows |
| Durations.PhaseRowsFrom | Resources/script.js:390-405 | Every row belongs to a visited phase that is present with both bounds, and is that phase's `min-max units` row |
| Durations.PhaseShownIff | Resources/script.js:390-405 | A phase has a row exactly when it is present and both bounds are non-null |
| Durations.PhaseRowsInOrder | Resources/script.js:381-390 | Rows follow onset, come up, peak, offset, afterglow, total |
| Durations.DurationPhaseIgnored | Resources/script.js:381-388 | The requested `duration` phase never affects the rows |
| Durations.RowOf | Resources/script.js:396-402 | A phase's row carries that phase and its label |
| Durations.RowOfText | Resources/script.js:397-402 | The row's text is exactly `<min>-<max> <units>`: the minimum first, then the maximum, then the units or `null` |
| Durations.PhaseRows | Resources/script.js:381-405 | No more rows than phases, each for a phase that is present with both bounds and built from that phase by RowOf (no phase twice is PhaseRowsInOrder) |
| Durations.BioText | Resources/script.js:411-425 | Bioavailability text exists exactly when the record is present with a non-null bound; it ends in `%`; it starts with `≥` exactly when only min is known and with `≤` exactly when only max is known |
| Durations.BioTextBoth | Resources/script.js:416-417 | Both bounds known: exactly `<min>% - <max>%`, the minimum first |
| Durations.BioTextMinOnly | Resources/script.js:418-419 | Only the minimum known: exactly `≥ <min>%` |
| Durations.BioTextMaxOnly | Resources/script.js:420-421 | Only the maximum known: exactly `≤ <max>%` |
| Durations.SectionOf | Resources/script.js:366-425 | A route's section carries the route's name, the phase rows of its duration (PhaseRows) and its bioavailability line (BioText), so PhaseShownIff, PhaseRowsInOrder and the BioText lemmas hold of every section |
| Durations.DurationSections | Resources/script.js:366-427 | The loop over the routes as a function of the routes seen so far; no more sections than routes (one section per timed route is DurationSectionsMatchRoutes) |
| Durations.DurationSectionsMatchRoutes | Resources/script.js:366-427 | One section per route that has a duration, built from that route, in input order |
| Durations.NoDurationHidesBioavailability | Resources/script.js:367-411 | A route without a duration adds nothing, not even its bioavailability |
| Durations.DurationPane | Resources/script.js:365-430 | The tab shows "No duration information available." exactly when `roas` is null or empty |
| Durations.NoTimedRouteGivesEmptyPane | Resources/script.js:365-430 | Listed routes that all lack a duration give an empty tab with no placeholder |
| Durations.BuildPhaseRows | Resources/script.js:390-405 | For the fixed phase order, the loop produces exactly the specified rows |
| Durations.BuildPhaseRowsFrom | Resources/script.js:390-405 | The loop over the phase entries, visited in the given order, produces exactly the specified rows |
| Durations.BuildDurationSections | Resources/script.js:366-427 | The loop over the routes produces exactly the specified sections |
| Listings.EffectBadge | Resources/script.js:437-451 | The badge shows the effect's name and links to its url exactly when the url is non-empty |
| Listings.EffectsPane | Resources/script.js:432-459 | The placeholder "No effects information available." exactly when `effects` is null or empty; otherwise one badge per effect, in order, with that effect's name, linked exactly when its url is non-empty |
| Listings.InteractionsOf | Resources/script.js:462-532 | Each of the three columns lists its interactions' names in order, or shows its own "No … interactions listed." placeholder when the list is null or empty |
| Listings.ToxicityPane | Resources/script.js:534-547 | The placeholder "No toxicity information available." exactly when `toxicity` is null or empty; otherwise the notes themselves, in order |
| Listings.ImageCellOf | Resources/script.js:554-571 | An entry with an image gives a thumbnail whose link and source are the full image; an entry without one gives an empty cell |
| Listings.ThumbNeverUsed | Resources/script.js:558-568 | The requested `thumb` field never affects the cell |
| Listings.ImagesPane | Resources/script.js:549-579 | The placeholder "No images available." exactly when `images` is null or empty; otherwise one cell per entry, in order, a thumbnail exactly when the entry has an image |
| Render.RenderView | Resources/script.js:145-596 | The card built by the loops equals the specified view of the substance |
| Render.ViewOf | Resources/script.js:145-595 | The card shows the substance's name, and the "Featured" badge exactly when `featured` is `true` (not when it is null). Each tab is the specified pane: DosagePane, DurationPane, EffectsPane, InteractionsOf, ToxicityPane, ImagesPane. Dosage and Duration show their placeholders together, exactly when `roas` is null or empty |
| Transport.ErrorText | Resources/script.js:109-128 | The slot text is `Network response was not ok: <status>`, the first error's message or `Error fetching data` when that message is empty, or `No substances found with that name`; none of these is empty |
| Transport.Classify | Resources/script.js:106-122 | A non-ok failure arises exactly when the status is outside 200-299, and it carries that status. The other branches are stated by FoundIff, ErrorsBeforeSubstances, NoSubstancesWhenUnlisted and BrowserFaults |
| Transport.FoundIff | Resources/script.js:106-122 | A substance is returned exactly when the status is ok, the body is JSON without `errors`, and `substances` is non-empty; it is the first one |
| Transport.StatusFirst | Resources/script.js:106-110 | A status outside 200-299 decides the outcome whatever the body holds |
| Transport.ErrorsBeforeSubstances | Resources/script.js:114-116 | An `errors` member decides the outcome whatever `data` holds; an empty `errors` array raises instead of reporting |
| Transport.NoSubstancesWhenUnlisted | Resources/script.js:118-119 | An ok answer with no `errors` whose `substances` is null or empty fails with "no substances found" |
| Transport.BrowserFaults | Resources/script.js:95-118 | A rejected `fetch`, a body that is not JSON and a null `data` each raise their own browser fault |
| Transport.OnlyFirstSubstance | Resources/script.js:118-122 | With several substances, the first is returned and the rest are discarded |
| Transport.NotOkMessageCarriesStatus | Resources/script.js:109 | The status code can be read back from a non-ok response's message |
| Page.FindById | Resources/script.js:289 | `getElementById` returns the first index carrying the id, or nothing when no element has it |
| Page.PaneOfTab | Resources/script.js:289-317 | The pane the click handler looks up for a tab is the pane created for that tab |
| Page.OnlyActive | Resources/script.js:278-290 | Six `active` flags, of which exactly the one at the given tab is set |
| Page.Page.ShowLoading | Resources/script.js:131-133 | Sets the loading flag and logs the call; nothing else changes |
| Page.Page.ShowError | Resources/script.js:135-138 | Sets the slot's text and makes it visible |
| Page.Page.HideError | Resources/script.js:140-142 | Hides the slot and keeps its text |
| Page.Page.FetchSubstanceData | Resources/script.js:24-129 | The loading indicator is shown first and hidden last on every path, after the slot is hidden. A failure shows its message and returns None. A success returns the first substance and leaves the slot hidden. The results are untouched |
| Page.Page.RenderSubstanceData | Resources/script.js:145-148 | Replaces the results with the substance's view, or empties them for null; after a render only the first tab and the first pane are active |
| Page.Page.ClickTab | Resources/script.js:281-290 | Afterwards exactly the clicked tab and its `-content` pane are active, whatever the state before |
| Page.Page.Search | Resources/script.js:599-607 | A blank input changes nothing. Otherwise one fetch for the trimmed name. The results and tabs are re-rendered only when a substance comes back, so a failed search leaves the previous results displayed |
| Page.Page.KeyPress | Resources/script.js:609-613 | Enter performs the search; any other key changes nothing |

## Left out

- The GraphQL query text, the HTTP transport and JSON parsing (Resources/script.js:30-104, 107, 112). The model takes the API's answer as input: `fetch` rejected, or a status with a body that is either not JSON or holds `errors` and `data`. `Search` takes the API as a function from the trimmed name to that answer. The unescaped interpolation of the name into the query is not modelled.
- The browser's Number-to-String conversion is the page parameter `show`, and the messages of exceptions the browser raises are the parameter `engine`. Float rounding is not modelled.
- JSON of an unexpected shape is not modelled: a body that is JSON but not an object, a null entry inside `errors`, a non-string `message`, a null entry in `substances`. A null first substance would be returned without `showError` being called (Resources/script.js:122). The search would then render nothing (Resources/script.js:603-604), and the model cannot express that case. Names of routes, effects and interactions, the substance's name and the toxicity notes are modelled as non-null strings. The script would render a null substance name as `null` in the heading (Resources/script.js:156), and a null toxicity note as an empty list item (Resources/script.js:540).
- The header's summary and the meta block (common names, class, addiction potential, tolerance, cross-tolerances, systematic name; Resources/script.js:165-261). The header is kept only as the name and the featured flag. CSS classes other than `active`, headings and badge colours are not modelled.
- The random default substance and the automatic search 500 ms after load (Resources/script.js:14-21, 616-621). These are randomness and a timer. That path calls `fetchSubstanceData` without the empty-name guard.
- Overlapping searches, where the last response to arrive wins. That is concurrency. Each search is modelled as one atomic step, and the loading indicator's visible period shows only as the order of the logged calls.
- Page.Page: the six tab and pane elements are modelled as two flag arrays that every render resets. The DOM instead builds new elements on each render.
- RootViewController.swift is not part of this model. It only hosts the page in a WebView.

=== FILE: Dosage.dfy ===
/**
 * The Dosage tab: one table row per route of administration that has a
 * dose, with the cells threshold, light, common, strong, heavy and units.
 */
module Dosage {
  import opened Wrappers
  import opened JsText
  import opened Substances
  import opened Lists

  const Dash := "-"
  const NoDosage := "No dosage information available."

  datatype DoseRow = DoseRow(
    route: string,
    threshold: string,
    light: string,
    common: string,
    strong: string,
    heavy: string,
    units: string)

  /** `threshold !== null ? threshold : '-'` */
  function ThresholdCell(t: Option<Number>, show: Show): (c: string)
    ensures c == Dash <==> t.None?
    ensures t.Some? ==> c == show(t.value) && IsNumberText(c)
  {
    if t.Some? then show(t.value) else Dash
  }

  /** `band ? `${band.min}-${band.max}` : '-'` for the light, common and strong bands. */
  function BandCell(b: Option<Band>, show: Show): (c: string)
    ensures c == Dash <==> b.None?
    ensures b.Some? && b.value.min.Some? && b.value.max.Some? ==>
      forall i :: 0 <= i < |c| ==> IsNumberChar(c[i])
  {
    match b
    case None => Dash
    case Some(band) => NumberOrNull(band.min, show) + Dash + NumberOrNull(band.max, show)
  }

  /** `heavy !== null ? `>${heavy}` : '-'` */
  function HeavyCell(h: Option<Number>, show: Show): (c: string)
    ensures c == Dash <==> h.None?
    ensures h.Some? ==> |c| > 1 && c[0] == '>' && IsNumberText(c[1..])
  {
    if h.Some? then ">" + show(h.value) else Dash
  }

  /** `units || ''` */
  function UnitsCell(u: Option<string>): (c: string)
    ensures c == "" <==> !Truthy(u)
    ensures Truthy(u) ==> c == u.value
  {
    if Truthy(u) then u.value else ""
  }

  /** A heavy dose is never shown as ">null", whatever the dose. */
  lemma HeavyNeverNull(h: Option<Number>, show: Show)
    ensures HeavyCell(h, show) != ">null"
  {
  }

  /**
   * A band that is present but has a null bound is not a placeholder: its
   * bound is interpolated as the text "null".
   */
  lemma BandWithNullBound(hi: Number, show: Show)
    ensures BandCell(Some(Band(None, Some(hi))), show) == "null-" + show(hi)
  {
  }

  /** A band with both bounds reads `min-max`: the minimum's text, a hyphen, the maximum's text. */
  lemma BandCellText(lo: Number, hi: Number, show: Show)
    ensures BandCell(Some(Band(Some(lo), Some(hi))), show) == show(lo) + "-" + show(hi)
  {
  }

  /** A heavy dose reads `>` followed by that dose's own text. */
  lemma HeavyCellText(h: Number, show: Show)
    ensures HeavyCell(Some(h), show) == ">" + show(h)
  {
  }

  predicate HasDose(r: Roa) { r.dose.Some? }

  /** The row of one route: its name, then the five dose cells and the units. */
  function DoseRowOf(r: Roa, show: Show): (row: DoseRow)
    requires r.dose.Some?
    ensures row.route == r.name
    ensures var d := r.dose.value;
      && row.threshold == ThresholdCell(d.threshold, show)
      && row.light == BandCell(d.light, show)
      && row.common == BandCell(d.common, show)
      && row.strong == BandCell(d.strong, show)
      && row.heavy == HeavyCell(d.heavy, show)
      && row.units == UnitsCell(d.units)
  {
    var d := r.dose.value;
    DoseRow(r.name, ThresholdCell(d.threshold, show), BandCell(d.light, show),
            BandCell(d.common, show), BandCell(d.strong, show), HeavyCell(d.heavy, show),
            UnitsCell(d.units))
  }

  /** The rows of the dosage table, built the way the loop builds them: one route at a time. */
  function DosageRows(roas: seq<Roa>, show: Show): (rows: seq<DoseRow>)
    ensures |rows| <= |roas|
    decreases |roas|
  {
    if roas == [] then []
    else
      var last := roas[|roas| - 1];
      DosageRows(roas[..|roas| - 1], show) + (if last.dose.Some? then [DoseRowOf(last, show)] else [])
  }

  /**
   * Exactly one row per route that has a dose, for that route, in input
   * order; routes without a dose are skipped.
   */
  lemma {:induction false} DosageRowsMatchRoutes(roas: seq<Roa>, show: Show)
    ensures |DosageRows(roas, show)| == |Filter(HasDose, roas)|
    ensures forall k :: 0 <= k < |DosageRows(roas, show)| ==>
      var r := Filter(HasDose, roas)[k];
      r.dose.Some? && DosageRows(roas, show)[k] == DoseRowOf(r, show)
    decreases |roas|
  {
    if roas != [] {
      var init, last := roas[..|roas| - 1], roas[|roas| - 1];
      assert roas == init + [last];
      DosageRowsMatchRoutes(init, show);
      FilterSnoc(HasDose, init, last);
      var kept, front := Filter(HasDose, roas), DosageRows(init, show);
      assert DosageRows(roas, show) == front + (if last.dose.Some? then [DoseRowOf(last, show)] else []);
      forall k | 0 <= k < |kept|
        ensures kept[k].dose.Some?
      {
        assert kept[k] in kept;
      }
    }
  }

  /** The Dosage tab: the table when `roas` is listed, the placeholder otherwise. */
  function DosagePane(roas: Option<seq<Roa>>, show: Show): (p: Pane<DoseRow>)
    ensures p.Placeholder? <==> !Listed(roas)
    ensures p.Placeholder? ==> p.text == NoDosage
  {
    if Listed(roas) then Filled(DosageRows(roas.value, show)) else Placeholder(NoDosage)
  }

  /** Routes that are listed but have no dose give an empty table, not the placeholder. */
  lemma NoDosedRouteGivesEmptyTable(roas: seq<Roa>, show: Show)
    requires |roas| > 0
    requires forall i :: 0 <= i < |roas| ==> roas[i].dose.None?
    ensures DosagePane(Some(roas), show) == Filled([])
  {
    FilterNone(HasDose, roas);
    DosageRowsMatchRoutes(roas, show);
  }

  /** The loop of the dosage tab: one `tableHTML +=` per dosed route. */
  method BuildDosageRows(roas: seq<Roa>, show: Show) returns (rows: seq<DoseRow>)
    ensures rows == DosageRows(roas, show)
  {
    rows := [];
    var i := 0;
    while i < |roas|
      invariant 0 <= i <= |roas|
      invariant rows == DosageRows(roas[..i], show)
    {
      var roa := roas[i];
      if roa.dose.Some? {
        rows := rows + [DoseRowOf(roa, show)];
      }
      assert roas[..i + 1][..i] == roas[..i] && roas[..i + 1][i] == roa;
      assert rows == DosageRows(roas[..i + 1], show);
      i := i + 1;
    }
    assert roas[..|roas|] == roas;
  }
}

=== FILE: Durations.dfy ===
/**
 * The Duration tab: for every route that has a duration, a heading with the
 * route's name, a table of the phases that have both bounds, and the route's
 * bioavailability when at least one of its bounds is known.
 */
module Durations {
  import opened Wrappers
  import opened JsText
  import opened Substances
  import opened Lists

  const NoDuration := "No duration information available."
  const AtLeast: char := '\U{2265}'
  const AtMost: char := '\U{2264}'

  /** The phases the table shows; the requested `duration` phase is not among them. */
  datatype Phase = Onset | Comeup | Peak | Offset | Afterglow | Total

  /** The order of the entries of the `phases` object, which `Object.entries` keeps. */
  const PhaseOrder: seq<Phase> := [Onset, Comeup, Peak, Offset, Afterglow, Total]

  function Rank(p: Phase): (n: nat)
    ensures n < |PhaseOrder| && PhaseOrder[n] == p
  {
    match p
    case Onset => 0
    case Comeup => 1
    case Peak => 2
    case Offset => 3
    case Afterglow => 4
    case Total => 5
  }

  function Label(p: Phase): string {
    match p
    case Onset => "Onset"
    case Comeup => "Come up"
    case Peak => "Peak"
    case Offset => "Offset"
    case Afterglow => "Afterglow"
    case Total => "Total"
  }

  /** `roa.duration[key]` */
  function PhaseOf(d: Duration, p: Phase): Option<Interval> {
    match p
    case Onset => d.onset
    case Comeup => d.comeup
    case Peak => d.peak
    case Offset => d.offset
    case Afterglow => d.afterglow
    case Total => d.total
  }

  /** A phase gets a row when it is present and neither bound is null. */
  predicate Renderable(d: Duration, p: Phase) {
    PhaseOf(d, p).Some? && PhaseOf(d, p).value.min.Some? && PhaseOf(d, p).value.max.Some?
  }

  datatype PhaseRow = PhaseRow(phase: Phase, caption: string, text: string)

  /** `${min}-${max} ${units}`; a null `units` is interpolated as "null". */
  function RowOf(d: Duration, p: Phase, show: Show): (row: PhaseRow)
    requires Renderable(d, p)
    ensures row.phase == p && row.caption == Label(p)
  {
    var iv := PhaseOf(d, p).value;
    PhaseRow(p, Label(p), show(iv.min.value) + "-" + show(iv.max.value) + " " + StringOrNull(iv.units))
  }

  /** A phase's row reads `min-max units`: the minimum first, then the maximum, then the units or "null". */
  lemma RowOfText(d: Duration, p: Phase, show: Show)
    requires Renderable(d, p)
    ensures var iv := PhaseOf(d, p).value;
      RowOf(d, p, show).text == show(iv.min.value) + "-" + show(iv.max.value) + " " + StringOrNull(iv.units)
  {
  }

  /** The row of phase `p`, if it has one. */
  function RowIf(d: Duration, p: Phase, show: Show): seq<PhaseRow> {
    if Renderable(d, p) then [RowOf(d, p, show)] else []
  }

  /** The rows for the phases `keys`, visited in that order, one `tableHTML +=` at a time. */
  function PhaseRowsFrom(d: Duration, keys: seq<Phase>, show: Show): (rows: seq<PhaseRow>)
    ensures |rows| <= |keys|
    ensures forall i :: 0 <= i < |rows| ==>
      rows[i].phase in keys && Renderable(d, rows[i].phase) && rows[i] == RowOf(d, rows[i].phase, show)
    decreases |keys|
  {
    if keys == [] then []
    else
      var init := keys[..|keys| - 1];
      assert forall p :: p in init ==> p in keys;
      PhaseRowsFrom(d, init, show) + RowIf(d, keys[|keys| - 1], show)
  }

  /** The rows of one route's duration table, at most one per phase. */
  function PhaseRows(d: Duration, show: Show): (rows: seq<PhaseRow>)
    ensures |rows| <= |PhaseOrder|
    ensures forall i :: 0 <= i < |rows| ==> Renderable(d, rows[i].phase) && rows[i] == RowOf(d, rows[i].phase, show)
  {
    PhaseRowsFrom(d, PhaseOrder, show)
  }

  /** Every visited phase that has both bounds gets a row. */
  lemma {:induction false} PhaseRowsFromCovers(d: Duration, keys: seq<Phase>, p: Phase, show: Show)
    requires p in keys && Renderable(d, p)
    ensures exists i :: 0 <= i < |PhaseRowsFrom(d, keys, show)| && PhaseRowsFrom(d, keys, show)[i].phase == p
    decreases |keys|
  {
    var init, last := keys[..|keys| - 1], keys[|keys| - 1];
    var rows := PhaseRowsFrom(d, keys, show);
    var front := PhaseRowsFrom(d, init, show);
    assert rows == front + RowIf(d, last, show);
    if last == p {
      assert rows[|front|].phase == p;
    } else {
      assert keys == init + [last];
      assert p in init;
      PhaseRowsFromCovers(d, init, p, show);
      var i :| 0 <= i < |front| && front[i].phase == p;
      assert rows[i].phase == p;
    }
  }

  /** A phase has a row exactly when it is present with both bounds. */
  lemma PhaseShownIff(d: Duration, p: Phase, show: Show)
    ensures (exists i :: 0 <= i < |PhaseRows(d, show)| && PhaseRows(d, show)[i].phase == p)
      <==> Renderable(d, p)
  {
    if Renderable(d, p) {
      assert PhaseOrder[Rank(p)] == p;
      PhaseRowsFromCovers(d, PhaseOrder, p, show);
      var rows := PhaseRows(d, show);
      var i :| 0 <= i < |rows| && rows[i].phase == p;
      assert PhaseRows(d, show)[i].phase == p;
    }
  }

  predicate Increasing(keys: seq<Phase>) {
    forall i, j :: 0 <= i < j < |keys| ==> Rank(keys[i]) < Rank(keys[j])
  }

  lemma {:induction false} PhaseRowsFromIncreasing(d: Duration, keys: seq<Phase>, show: Show)
    requires Increasing(keys)
    ensures forall i, j :: 0 <= i < j < |PhaseRowsFrom(d, keys, show)| ==>
      Rank(PhaseRowsFrom(d, keys, show)[i].phase) < Rank(PhaseRowsFrom(d, keys, show)[j].phase)
    decreases |keys|
  {
    if keys != [] {
      var init, last := keys[..|keys| - 1], keys[|keys| - 1];
      var front := PhaseRowsFrom(d, init, show);
      PhaseRowsFromIncreasing(d, init, show);
      forall i | 0 <= i < |front|
        ensures Rank(front[i].phase) < Rank(last)
      {
        var k :| 0 <= k < |init| && init[k] == front[i].phase;
        assert keys[k] == front[i].phase;
      }
      assert PhaseRowsFrom(d, keys, show) == front + RowIf(d, last, show);
    }
  }

  /** The rows follow the fixed order onset, come up, peak, offset, afterglow, total. */
  lemma PhaseRowsInOrder(d: Duration, show: Show)
    ensures forall i, j :: 0 <= i < j < |PhaseRows(d, show)| ==>
      Rank(PhaseRows(d, show)[i].phase) < Rank(PhaseRows(d, show)[j].phase)
  {
    forall i | 0 <= i < |PhaseOrder|
      ensures Rank(PhaseOrder[i]) == i
    {
    }
    PhaseRowsFromIncreasing(d, PhaseOrder, show);
  }

  /** The rows do not depend on the requested `duration` phase: it is never shown. */
  lemma {:induction false} DurationPhaseIgnored(d: Duration, x: Option<Interval>, keys: seq<Phase>, show: Show)
    ensures PhaseRowsFrom(d.(duration := x), keys, show) == PhaseRowsFrom(d, keys, show)
    decreases |keys|
  {
    if keys != [] {
      var last := keys[|keys| - 1];
      DurationPhaseIgnored(d, x, keys[..|keys| - 1], show);
      assert PhaseOf(d.(duration := x), last) == PhaseOf(d, last);
      assert RowIf(d.(duration := x), last, show) == RowIf(d, last, show);
    }
  }

  /**
   * The bioavailability line: `min% - max%`, `≥ min%`, `≤ max%`, or nothing
   * when the record is absent or both bounds are null.
   */
  function BioText(b: Option<Bioavailability>, show: Show): (r: Option<string>)
    ensures r.Some? <==> b.Some? && (b.value.min.Some? || b.value.max.Some?)
    ensures r.Some? ==> |r.value| > 1 && r.value[|r.value| - 1] == '%'
    ensures r.Some? ==> (r.value[0] == AtLeast <==> b.value.max.None?)
    ensures r.Some? ==> (r.value[0] == AtMost <==> b.value.min.None?)
  {
    if b.None? || (b.value.min.None? && b.value.max.None?) then None
    else if b.value.min.Some? && b.value.max.Some? then
      Some(show(b.value.min.value) + "% - " + show(b.value.max.value) + "%")
    else if b.value.min.Some? then Some([AtLeast, ' '] + show(b.value.min.value) + "%")
    else Some([AtMost, ' '] + show(b.value.max.value) + "%")
  }

  /** Both bounds known: `min% - max%`, the minimum first. */
  lemma BioTextBoth(lo: Number, hi: Number, show: Show)
    ensures BioText(Some(Bioavailability(Some(lo), Some(hi))), show) == Some(show(lo) + "% - " + show(hi) + "%")
  {
  }

  /** Only the minimum known: `≥ min%`. */
  lemma BioTextMinOnly(lo: Number, show: Show)
    ensures BioText(Some(Bioavailability(Some(lo), None)), show) == Some([AtLeast, ' '] + show(lo) + "%")
  {
  }

  /** Only the maximum known: `≤ max%`. */
  lemma BioTextMaxOnly(hi: Number, show: Show)
    ensures BioText(Some(Bioavailability(None, Some(hi))), show) == Some([AtMost, ' '] + show(hi) + "%")
  {
  }

  datatype RouteSection = RouteSection(route: string, phases: seq<PhaseRow>, bioavailability: Option<string>)

  predicate HasDuration(r: Roa) { r.duration.Some? }

  /** One route's part of the tab: its name, its phase rows and its bioavailability line. */
  function SectionOf(r: Roa, show: Show): (sec: RouteSection)
    requires r.duration.Some?
    ensures sec.route == r.name
    ensures sec.phases == PhaseRows(r.duration.value, show)
    ensures sec.bioavailability == BioText(r.bioavailability, show)
  {
    RouteSection(r.name, PhaseRows(r.duration.value, show), BioText(r.bioavailability, show))
  }

  /** The sections of the tab, built the way the loop builds them: one route at a time. */
  function DurationSections(roas: seq<Roa>, show: Show): (sections: seq<RouteSection>)
    ensures |sections| <= |roas|
    decreases |roas|
  {
    if roas == [] then []
    else
      var last := roas[|roas| - 1];
      DurationSections(roas[..|roas| - 1], show) + (if last.duration.Some? then [SectionOf(last, show)] else [])
  }

  /** Exactly one section per route that has a duration, for that route, in input order. */
  lemma {:induction false} DurationSectionsMatchRoutes(roas: seq<Roa>, show: Show)
    ensures |DurationSections(roas, show)| == |Filter(HasDuration, roas)|
    ensures forall k :: 0 <= k < |DurationSections(roas, show)| ==>
      var r := Filter(HasDuration, roas)[k];
      r.duration.Some? && DurationSections(roas, show)[k] == SectionOf(r, show)
    decreases |roas|
  {
    if roas != [] {
      var init, last := roas[..|roas| - 1], roas[|roas| - 1];
      assert roas == init + [last];
      DurationSectionsMatchRoutes(init, show);
      FilterSnoc(HasDuration, init, last);
      var kept, front := Filter(HasDuration, roas), DurationSections(init, show);
      assert DurationSections(roas, show) == front + (if last.duration.Some? then [SectionOf(last, show)] else []);
      forall k | 0 <= k < |kept|
        ensures kept[k].duration.Some?
      {
        assert kept[k] in kept;
      }
    }
  }

  /**
   * A route without a duration adds nothing to the tab, not even its
   * bioavailability, which is only shown under a duration table.
   */
  lemma NoDurationHidesBioavailability(roas: seq<Roa>, r: Roa, show: Show)
    requires r.duration.None?
    ensures DurationSections(roas + [r], show) == DurationSections(roas, show)
  {
  }

  /** The Duration tab: the sections when `roas` is listed, the placeholder otherwise. */
  function DurationPane(roas: Option<seq<Roa>>, show: Show): (p: Pane<RouteSection>)
    ensures p.Placeholder? <==> !Listed(roas)
    ensures p.Placeholder? ==> p.text == NoDuration
  {
    if Listed(roas) then Filled(DurationSections(roas.value, show)) else Placeholder(NoDuration)
  }

  /** Routes that are listed but have no duration leave the tab empty, without the placeholder. */
  lemma NoTimedRouteGivesEmptyPane(roas: seq<Roa>, show: Show)
    requires |roas| > 0
    requires forall i :: 0 <= i < |roas| ==> roas[i].duration.None?
    ensures DurationPane(Some(roas), show) == Filled([])
  {
    FilterNone(HasDuration, roas);
    DurationSectionsMatchRoutes(roas, show);
  }

  /** `Object.entries(phases).forEach(...)`: one `tableHTML +=` per renderable phase. */
  method BuildPhaseRows(d: Duration, show: Show) returns (rows: seq<PhaseRow>)
    ensures rows == PhaseRows(d, show)
  {
    rows := BuildPhaseRowsFrom(d, PhaseOrder, show);
  }

  method BuildPhaseRowsFrom(d: Duration, keys: seq<Phase>, show: Show) returns (rows: seq<PhaseRow>)
    ensures rows == PhaseRowsFrom(d, keys, show)
  {
    rows := [];
    var i := 0;
    while i < |keys|
      invariant 0 <= i <= |keys|
      invariant rows == PhaseRowsFrom(d, keys[..i], show)
    {
      var p := keys[i];
      var phase := PhaseOf(d, p);
      if phase.Some? && phase.value.min.Some? && phase.value.max.Some? {
        rows := rows + [RowOf(d, p, show)];
      }
      assert keys[..i + 1][..i] == keys[..i];
      i := i + 1;
    }
    assert keys[..i] == keys;
  }

  /** `substance.roas.forEach(...)` of the Duration tab. */
  method BuildDurationSections(roas: seq<Roa>, show: Show) returns (sections: seq<RouteSection>)
    ensures sections == DurationSections(roas, show)
  {
    sections := [];
    var i := 0;
    while i < |roas|
      invariant 0 <= i <= |roas|
      invariant sections == DurationSections(roas[..i], show)
    {
      var roa := roas[i];
      if roa.duration.Some? {
        var rows := BuildPhaseRows(roa.duration.value, show);
        sections := sections + [RouteSection(roa.name, rows, BioText(roa.bioavailability, show))];
      }
      assert roas[..i + 1][..i] == roas[..i];
      i := i + 1;
    }
    assert roas[..|roas|] == roas;
  }
}

=== FILE: JsText.dfy ===
/**
 * The pieces of JavaScript's string behaviour the page relies on: what a
 * template literal `${x}` yields for a JSON number or for `null`, the decimal
 * text of an HTTP status code, and `String.prototype.trim`.
 */
module JsText {
  import opened Wrappers

  predicate IsDigit(c: char) { '0' <= c <= '9' }

  /** The characters Number-to-String can produce for a finite number read from JSON. */
  predicate IsNumberChar(c: char) { IsDigit(c) || c == '.' || c == '-' || c == '+' || c == 'e' }

  /**
   * The shape of the text of a finite number: non-empty, made of number
   * characters, and starting with a digit or with a minus sign before a digit.
   */
  predicate IsNumberText(s: string) {
    && |s| > 0
    && (forall i :: 0 <= i < |s| ==> IsNumberChar(s[i]))
    && (IsDigit(s[0]) || (s[0] == '-' && |s| > 1 && IsDigit(s[1])))
  }

  type NumText = s: string | IsNumberText(s) witness "0"

  /** A numeric field of the API (a JSON number, a float in the browser). */
  type Number = real

  /** The browser's Number-to-String conversion, which the model leaves abstract. */
  type Show = Number -> NumText

  /** `${x}` for a nullable number: the number's text, or "null". */
  function NumberOrNull(x: Option<Number>, show: Show): (r: string)
    ensures x.None? ==> r == "null"
    ensures x.Some? ==> IsNumberText(r) && r != "-"
  {
    match x
    case None => "null"
    case Some(v) => show(v)
  }

  /** `${s}` for a nullable string: the string itself, or "null". */
  function StringOrNull(s: Option<string>): (r: string)
    ensures s.Some? ==> r == s.value
    ensures s.None? ==> r == "null"
  {
    match s
    case None => "null"
    case Some(t) => t
  }

  // ---- decimal text of a status code ------------------------------------

  function DigitChar(d: nat): (c: char)
    requires d < 10
    ensures IsDigit(c) && (c as int) - ('0' as int) == d
  {
    (('0' as int) + d) as char
  }

  /** `${n}` for a non-negative integer such as an HTTP status code. */
  function Decimal(n: nat): (r: string)
    ensures |r| > 0
    ensures forall i :: 0 <= i < |r| ==> IsDigit(r[i])
    ensures r[0] == '0' ==> n == 0
    decreases n
  {
    if n < 10 then [DigitChar(n)] else Decimal(n / 10) + [DigitChar(n % 10)]
  }

  /** Reads a string of decimal digits back as a number. */
  function DecimalValue(s: string): nat
    requires forall i :: 0 <= i < |s| ==> IsDigit(s[i])
    decreases |s|
  {
    if s == [] then 0
    else
      var last := s[|s| - 1];
      assert IsDigit(last);
      10 * DecimalValue(s[..|s| - 1]) + ((last as int) - ('0' as int))
  }

  /** The decimal text of a number determines the number. */
  lemma {:induction false} DecimalRoundTrip(n: nat)
    ensures DecimalValue(Decimal(n)) == n
    decreases n
  {
    var r := Decimal(n);
    if n >= 10 {
      DecimalRoundTrip(n / 10);
      assert r[..|r| - 1] == Decimal(n / 10);
    }
  }

  // ---- String.prototype.trim ---------------------------------------------

  /** WhiteSpace and LineTerminator code points of ECMAScript, which `trim` removes. */
  predicate IsJsSpace(c: char) {
    || c == '\t' || c == '\n' || c == '\U{000B}' || c == '\U{000C}' || c == '\r' || c == ' '
    || c == '\U{00A0}' || c == '\U{1680}' || ('\U{2000}' <= c <= '\U{200A}')
    || c == '\U{2028}' || c == '\U{2029}' || c == '\U{202F}' || c == '\U{205F}'
    || c == '\U{3000}' || c == '\U{FEFF}'
  }

  predicate AllSpace(s: string) {
    forall i :: 0 <= i < |s| ==> IsJsSpace(s[i])
  }

  /** Drops the leading white space: what is left is a suffix of `s` that starts with a non-space. */
  function TrimStart(s: string): (r: string)
    ensures |r| <= |s| && r == s[|s| - |r|..]
    ensures r != [] ==> !IsJsSpace(r[0])
    decreases |s|
  {
    if s != [] && IsJsSpace(s[0]) then TrimStart(s[1..]) else s
  }

  /** Everything `TrimStart` drops is white space. */
  lemma {:induction false} TrimStartDropsSpace(s: string)
    ensures forall k :: 0 <= k < |s| - |TrimStart(s)| ==> IsJsSpace(s[k])
    decreases |s|
  {
    if s != [] && IsJsSpace(s[0]) {
      TrimStartDropsSpace(s[1..]);
      forall k | 1 <= k < |s| - |TrimStart(s)|
        ensures IsJsSpace(s[k])
      {
        assert s[k] == s[1..][k - 1];
      }
    }
  }

  /** Drops the trailing white space: what is left is a prefix of `s` that ends with a non-space. */
  function TrimEnd(s: string): (r: string)
    ensures |r| <= |s| && r == s[..|r|]
    ensures r != [] ==> !IsJsSpace(r[|r| - 1])
    decreases |s|
  {
    if s != [] && IsJsSpace(s[|s| - 1]) then TrimEnd(s[..|s| - 1]) else s
  }

  /** Everything `TrimEnd` drops is white space. */
  lemma {:induction false} TrimEndDropsSpace(s: string)
    ensures forall k :: |TrimEnd(s)| <= k < |s| ==> IsJsSpace(s[k])
    decreases |s|
  {
    if s != [] && IsJsSpace(s[|s| - 1]) {
      TrimEndDropsSpace(s[..|s| - 1]);
      forall k | |TrimEnd(s)| <= k < |s| - 1
        ensures IsJsSpace(s[k])
      {
        assert s[k] == s[..|s| - 1][k];
      }
    }
  }

  /** `String.prototype.trim`: white space dropped from both ends. */
  function Trim(s: string): string
  {
    TrimEnd(TrimStart(s))
  }

  /**
   * `trim()` removes white space at both ends and nothing else: the result
   * is the slice of the input that starts after the leading white space, and
   * everything cut off on either side is white space.
   */
  lemma TrimSlice(s: string)
    ensures var i, r := |s| - |TrimStart(s)|, Trim(s);
      && i + |r| <= |s| && r == s[i..i + |r|]
      && (forall k :: 0 <= k < i ==> IsJsSpace(s[k]))
      && (forall k :: i + |r| <= k < |s| ==> IsJsSpace(s[k]))
  {
    var t := TrimStart(s);
    var r := TrimEnd(t);
    TrimStartDropsSpace(s);
    TrimEndDropsSpace(t);
    SliceOfSuffix(s, t, r);
  }

  /** A prefix `r` of a suffix `t` of `s` is a slice of `s`, and what `t` drops after `r` is in `s` too. */
  lemma SliceOfSuffix(s: string, t: string, r: string)
    requires |t| <= |s| && t == s[|s| - |t|..]
    requires |r| <= |t| && r == t[..|r|]
    requires forall k :: 0 <= k < |s| - |t| ==> IsJsSpace(s[k])
    requires forall k :: |r| <= k < |t| ==> IsJsSpace(t[k])
    ensures var i := |s| - |t|;
      && i + |r| <= |s| && r == s[i..i + |r|]
      && (forall k :: 0 <= k < i ==> IsJsSpace(s[k]))
      && (forall k :: i + |r| <= k < |s| ==> IsJsSpace(s[k]))
  {
    var i := |s| - |t|;
    forall k | 0 <= k < |r|
      ensures r[k] == s[i + k]
    {
      assert r[k] == t[k];
    }
    forall k | i + |r| <= k < |s|
      ensures IsJsSpace(s[k])
    {
      assert s[k] == t[k - i];
    }
  }

  /** The trimmed input neither starts nor ends with white space. */
  lemma TrimEnds(s: string)
    ensures Trim(s) != [] ==> !IsJsSpace(Trim(s)[0]) && !IsJsSpace(Trim(s)[|Trim(s)| - 1])
  {
    var t := TrimStart(s);
    if Trim(s) != [] {
      assert Trim(s)[0] == t[0];
    }
  }

  /** The trimmed input is empty exactly when the input is all white space. */
  lemma TrimEmptyIff(s: string)
    ensures Trim(s) == [] <==> AllSpace(s)
  {
    TrimSlice(s);
    var t := TrimStart(s);
    if Trim(s) == [] {
      TrimEndDropsSpace(t);
    } else {
      var i := |s| - |t|;
      assert s[i] == Trim(s)[0];
      TrimEnds(s);
    }
  }

  /** Trimming twice is trimming once. */
  lemma TrimIdempotent(s: string)
    ensures Trim(Trim(s)) == Trim(s)
  {
    var r := Trim(s);
    TrimEnds(s);
    assert TrimStart(r) == r;
    assert TrimEnd(r) == r;
  }
}

=== FILE: Listings.dfy ===
/**
 * The Effects, Interactions, Toxicity and Images tabs: each lists the
 * elements of one field in order, or shows its placeholder paragraph when
 * the field is null or empty.
 */
module Listings {
  import opened Wrappers
  import opened Substances
  import opened Lists

  const NoEffects := "No effects information available."
  const NoUncertain := "No uncertain interactions listed."
  const NoUnsafe := "No unsafe interactions listed."
  const NoDangerous := "No dangerous interactions listed."
  const NoToxicity := "No toxicity information available."
  const NoImages := "No images available."

  /** A badge with the effect's name, a link to its page when it has a url. */
  datatype Badge = Badge(text: string, link: Option<string>)

  function EffectBadge(e: Effect): (b: Badge)
    ensures b.text == e.name
    ensures b.link.Some? <==> Truthy(e.url)
    ensures b.link.Some? ==> b.link == e.url
  {
    Badge(e.name, if Truthy(e.url) then e.url else None)
  }

  /** One badge per effect, in order, or the placeholder. */
  function EffectsPane(s: Substance): (p: Pane<Badge>)
    ensures p.Placeholder? <==> !Listed(s.effects)
    ensures p.Placeholder? ==> p.text == NoEffects
    ensures p.Filled? ==> |p.items| == |s.effects.value|
    ensures p.Filled? ==> forall i :: 0 <= i < |p.items| ==>
      p.items[i].text == s.effects.value[i].name && p.items[i].link.Some? == Truthy(s.effects.value[i].url)
  {
    ListPane(s.effects, EffectBadge, NoEffects)
  }

  datatype Interactions = Interactions(uncertain: Pane<string>, unsafe: Pane<string>, dangerous: Pane<string>)

  function InteractionName(i: Interaction): string { i.name }

  /** The column shows the names of `xs` in order, or its placeholder when `xs` is null or empty. */
  predicate ShowsNames(column: Pane<string>, xs: Option<seq<Interaction>>, placeholder: string) {
    && (column.Placeholder? <==> !Listed(xs))
    && (column.Placeholder? ==> column.text == placeholder)
    && (column.Filled? ==> |column.items| == |xs.value|)
    && (column.Filled? ==> forall i :: 0 <= i < |xs.value| ==> column.items[i] == xs.value[i].name)
  }

  /** The three interaction columns, each filled from its own list. */
  function InteractionsOf(s: Substance): (v: Interactions)
    ensures ShowsNames(v.uncertain, s.uncertainInteractions, NoUncertain)
    ensures ShowsNames(v.unsafe, s.unsafeInteractions, NoUnsafe)
    ensures ShowsNames(v.dangerous, s.dangerousInteractions, NoDangerous)
  {
    Interactions(
      ListPane(s.uncertainInteractions, InteractionName, NoUncertain),
      ListPane(s.unsafeInteractions, InteractionName, NoUnsafe),
      ListPane(s.dangerousInteractions, InteractionName, NoDangerous))
  }

  function ToxicityItem(t: string): string { t }

  /** The toxicity notes as they are, in order, or the placeholder. */
  function ToxicityPane(s: Substance): (p: Pane<string>)
    ensures p.Placeholder? <==> !Listed(s.toxicity)
    ensures p.Placeholder? ==> p.text == NoToxicity
    ensures p.Filled? ==> p.items == s.toxicity.value
  {
    ListPane(s.toxicity, ToxicityItem, NoToxicity)
  }

  /**
   * One cell per image entry: a linked thumbnail whose link and source are
   * both the full image, or an empty cell when the entry has no image.
   */
  datatype ImageCell = Thumbnail(source: string) | EmptyCell

  function ImageCellOf(img: Image): (c: ImageCell)
    ensures c.Thumbnail? <==> Truthy(img.image)
    ensures c.Thumbnail? ==> c.source == img.image.value
  {
    if Truthy(img.image) then Thumbnail(img.image.value) else EmptyCell
  }

  /** The requested `thumb` field is never consulted. */
  lemma ThumbNeverUsed(img: Image, t: Option<string>)
    ensures ImageCellOf(img.(thumb := t)) == ImageCellOf(img)
  {
  }

  /** One cell per image entry, in order, or the placeholder. */
  function ImagesPane(s: Substance): (p: Pane<ImageCell>)
    ensures p.Placeholder? <==> !Listed(s.images)
    ensures p.Placeholder? ==> p.text == NoImages
    ensures p.Filled? ==> |p.items| == |s.images.value|
    ensures p.Filled? ==> forall i :: 0 <= i < |p.items| ==>
      (p.items[i].Thumbnail? <==> Truthy(s.images.value[i].image))
  {
    ListPane(s.images, ImageCellOf, NoImages)
  }
}

=== FILE: Lists.dfy ===
/**
 * How the page turns a nullable list into a tab pane: the guard
 * `xs && xs.length > 0` chooses between one entry per element, in order,
 * and a fixed placeholder paragraph.
 */
module Lists {
  import opened Wrappers

  datatype Pane<T> = Filled(items: seq<T>) | Placeholder(text: string)

  /** `xs && xs.length > 0` */
  predicate Listed<T>(xs: Option<seq<T>>) { xs.Some? && |xs.value| > 0 }

  /** A pane showing `f` of each element of a listed field, or the placeholder. */
  function ListPane<T, U>(xs: Option<seq<T>>, f: T -> U, placeholder: string): (p: Pane<U>)
    ensures p.Placeholder? <==> !Listed(xs)
    ensures p.Placeholder? ==> p.text == placeholder
    ensures p.Filled? ==> |p.items| == |xs.value|
    ensures p.Filled? ==> forall i :: 0 <= i < |p.items| ==> p.items[i] == f(xs.value[i])
  {
    if Listed(xs) then Filled(seq(|xs.value|, i requires 0 <= i < |xs.value| => f(xs.value[i])))
    else Placeholder(placeholder)
  }

  /** The elements of `xs` that satisfy `p`, in their original order. */
  function Filter<T(!new)>(p: T -> bool, xs: seq<T>): (ys: seq<T>)
    ensures |ys| <= |xs|
    ensures forall y :: y in ys <==> y in xs && p(y)
    decreases |xs|
  {
    if xs == [] then []
    else (if p(xs[0]) then [xs[0]] else []) + Filter(p, xs[1..])
  }

  /** Filtering keeps the relative order: it distributes over concatenation. */
  lemma {:induction false} FilterAppend<T(!new)>(p: T -> bool, xs: seq<T>, ys: seq<T>)
    ensures Filter(p, xs + ys) == Filter(p, xs) + Filter(p, ys)
    decreases |xs|
  {
    if xs != [] {
      assert (xs + ys)[1..] == xs[1..] + ys;
      FilterAppend(p, xs[1..], ys);
    } else {
      assert xs + ys == ys;
    }
  }

  /** Filtering a list extended by one element. */
  lemma FilterSnoc<T(!new)>(p: T -> bool, xs: seq<T>, x: T)
    ensures Filter(p, xs + [x]) == Filter(p, xs) + (if p(x) then [x] else [])
  {
    FilterAppend(p, xs, [x]);
    assert [x][1..] == [];
  }

  /** Nothing passes the filter when no element satisfies `p`. */
  lemma {:induction false} FilterNone<T(!new)>(p: T -> bool, xs: seq<T>)
    requires forall i :: 0 <= i < |xs| ==> !p(xs[i])
    ensures Filter(p, xs) == []
    decreases |xs|
  {
    if xs != [] {
      FilterNone(p, xs[1..]);
    }
  }

  /** A `forEach` that appends one rendered entry per element. */
  method ForEachAppend<T, U>(xs: seq<T>, f: T -> U) returns (ys: seq<U>)
    ensures |ys| == |xs|
    ensures forall i :: 0 <= i < |xs| ==> ys[i] == f(xs[i])
  {
    ys := [];
    var i := 0;
    while i < |xs|
      invariant 0 <= i <= |xs|
      invariant |ys| == i
      invariant forall k :: 0 <= k < i ==> ys[k] == f(xs[k])
    {
      ys := ys + [f(xs[i])];
      i := i + 1;
    }
  }

  /** Fills a pane with a `forEach` over a listed field, or sets its placeholder. */
  method BuildListPane<T, U>(xs: Option<seq<T>>, f: T -> U, placeholder: string) returns (p: Pane<U>)
    ensures p == ListPane(xs, f, placeholder)
  {
    if Listed(xs) {
      var items := ForEachAppend(xs.value, f);
      p := Filled(items);
    } else {
      p := Placeholder(placeholder);
    }
  }
}

=== FILE: Page.dfy ===
/**
 * The page's state: the loading indicator, the error slot, the results
 * container and the `active` class of the six tabs and their content panes,
 * with the handlers that change them.
 */
module Page {
  import opened Wrappers
  import opened JsText
  import opened Substances
  import opened Transport
  import opened Render

  const TabCount := 6

  type TabIndex = i: int | 0 <= i < TabCount

  /** The `id` of each tab, in the order the tabs are created. */
  const TabIds: seq<string> := ["dosage", "duration", "effects", "interactions", "toxicity", "images"]

  /** The `id` given to each content pane when it is created. */
  const PaneIds: seq<string> :=
    ["dosage-content", "duration-content", "effects-content",
     "interactions-content", "toxicity-content", "images-content"]

  /** `document.getElementById`: the first element carrying the id, if any. */
  function FindById(ids: seq<string>, id: string): (r: Option<nat>)
    ensures r.Some? ==> r.value < |ids| && ids[r.value] == id
    ensures r.Some? ==> forall k :: 0 <= k < r.value ==> ids[k] != id
    ensures r.None? <==> id !in ids
    decreases |ids|
  {
    if ids == [] then None
    else if ids[0] == id then Some(0)
    else
      match FindById(ids[1..], id)
      case None => None
      case Some(k) => Some(k + 1)
  }

  /** `FindById` finds `id` at `t` when it is there and nowhere before. */
  lemma {:induction false} FindByIdAt(ids: seq<string>, id: string, t: nat)
    requires t < |ids| && ids[t] == id
    requires forall k :: 0 <= k < t ==> ids[k] != id
    ensures FindById(ids, id) == Some(t)
    decreases t
  {
    if t > 0 {
      assert ids[0] != id;
      FindByIdAt(ids[1..], id, t - 1);
    }
  }

  /** The pane the click handler of tab `t` looks up is the pane created for tab `t`. */
  lemma PaneOfTab(t: TabIndex)
    ensures FindById(PaneIds, TabIds[t] + "-content") == Some(t)
  {
    var id := TabIds[t] + "-content";
    assert PaneIds[t] == id;
    assert id[0] == TabIds[t][0] && id[1] == TabIds[t][1];
    forall k | 0 <= k < t
      ensures PaneIds[k] != id
    {
      assert PaneIds[k][0] != TabIds[t][0] || PaneIds[k][1] != TabIds[t][1];
    }
    FindByIdAt(PaneIds, id, t);
  }

  /** The `active` flags of six elements of which only element `t` is active. */
  function OnlyActive(t: TabIndex): (flags: seq<bool>)
    ensures |flags| == TabCount
    ensures forall i :: 0 <= i < TabCount ==> (flags[i] <==> i == t)
  {
    seq(TabCount, i => i == t)
  }

  /** The calls the page makes on its loading indicator and error slot, in order. */
  datatype UiEvent = LoadingShown(visible: bool) | ErrorHidden | ErrorShown(message: string)

  class Page {
    /** The browser's Number-to-String conversion. */
    const show: Show
    /** The messages of the exceptions the browser raises. */
    const engine: Fault -> string

    var loading: bool
    var errorVisible: bool
    var errorText: string
    /** The content of the results container; None while it is empty. */
    var displayed: Option<View>
    const tabActive: array<bool>
    const paneActive: array<bool>
    ghost var events: seq<UiEvent>

    ghost predicate Valid()
      reads this
    {
      tabActive.Length == TabCount && paneActive.Length == TabCount && tabActive != paneActive
    }

    constructor (show: Show, engine: Fault -> string)
      ensures Valid() && fresh(tabActive) && fresh(paneActive)
      ensures this.show == show && this.engine == engine
      ensures !loading && !errorVisible && displayed == None && events == []
    {
      this.show := show;
      this.engine := engine;
      loading := false;
      errorVisible := false;
      errorText := "";
      displayed := None;
      tabActive := new bool[TabCount](_ => false);
      paneActive := new bool[TabCount](_ => false);
      events := [];
    }

    /** What one fetch does to the loading indicator and the error slot, in order. */
    ghost function FetchEvents(x: Exchange): seq<UiEvent> {
      [LoadingShown(true), ErrorHidden]
      + (if Classify(x).Failed? then [ErrorShown(ErrorText(Classify(x).failure, engine))] else [])
      + [LoadingShown(false)]
    }

    method ShowLoading(visible: bool)
      modifies this
      ensures loading == visible && events == old(events) + [LoadingShown(visible)]
      ensures errorVisible == old(errorVisible) && errorText == old(errorText)
      ensures displayed == old(displayed)
    {
      loading := visible;
      events := events + [LoadingShown(visible)];
    }

    method ShowError(message: string)
      modifies this
      ensures errorVisible && errorText == message && events == old(events) + [ErrorShown(message)]
      ensures loading == old(loading) && displayed == old(displayed)
    {
      errorText := message;
      errorVisible := true;
      events := events + [ErrorShown(message)];
    }

    /** Hides the slot and leaves its text in place. */
    method HideError()
      modifies this
      ensures !errorVisible && errorText == old(errorText) && events == old(events) + [ErrorHidden]
      ensures loading == old(loading) && displayed == old(displayed)
    {
      errorVisible := false;
      events := events + [ErrorHidden];
    }

    /**
     * One call of the API, `x` being what it answered. The loading
     * indicator is shown first and hidden last on every path; a failure
     * shows its message in the error slot and yields None.
     */
    method FetchSubstanceData(x: Exchange) returns (result: Option<Substance>)
      modifies this
      ensures !loading
      ensures events == old(events) + FetchEvents(x)
      ensures result == (if Classify(x).Found? then Some(Classify(x).substance) else None)
      ensures errorVisible <==> Classify(x).Failed?
      ensures errorText == (if Classify(x).Failed? then ErrorText(Classify(x).failure, engine) else old(errorText))
      ensures displayed == old(displayed)
    {
      ShowLoading(true);
      HideError();
      var outcome := Classify(x);
      match outcome {
        case Found(s) =>
          result := Some(s);
        case Failed(f) =>
          ShowError(ErrorText(f, engine));
          result := None;
      }
      ShowLoading(false);
    }

    /**
     * Empties the results container and, for a substance, fills it with a
     * new card whose first tab and first pane are the active ones.
     */
    method RenderSubstanceData(s: Option<Substance>)
      requires Valid()
      modifies this, tabActive, paneActive
      ensures displayed == (if s.Some? then Some(ViewOf(s.value, show)) else None)
      ensures s.Some? ==> tabActive[..] == OnlyActive(0) && paneActive[..] == OnlyActive(0)
      ensures s.None? ==> unchanged(tabActive) && unchanged(paneActive)
      ensures loading == old(loading) && events == old(events)
      ensures errorVisible == old(errorVisible) && errorText == old(errorText)
    {
      displayed := None;
      if s.None? {
        return;
      }
      var v := RenderView(s.value, show);
      for i := 0 to TabCount
        modifies tabActive, paneActive
        invariant forall k :: 0 <= k < i ==> (tabActive[k] <==> k == 0)
        invariant forall k :: 0 <= k < i ==> (paneActive[k] <==> k == 0)
      {
        tabActive[i] := i == 0;
        paneActive[i] := i == 0;
      }
      displayed := Some(v);
    }

    /** The click handler of tab `t`: clears every `active` class, then marks tab `t` and its pane. */
    method ClickTab(t: TabIndex)
      requires Valid() && displayed.Some?
      modifies tabActive, paneActive
      ensures tabActive[..] == OnlyActive(t) && paneActive[..] == OnlyActive(t)
    {
      for i := 0 to TabCount
        invariant forall k :: 0 <= k < i ==> !tabActive[k]
      {
        tabActive[i] := false;
      }
      tabActive[t] := true;
      for i := 0 to TabCount
        invariant forall k :: 0 <= k < i ==> !paneActive[k]
        invariant forall k :: 0 <= k < TabCount ==> (tabActive[k] <==> k == t)
      {
        paneActive[i] := false;
      }
      PaneOfTab(t);
      var pane := FindById(PaneIds, TabIds[t] + "-content");
      paneActive[pane.value] := true;
    }

    /** The effect of a search for `input`, `server` being what the API answers for a name. */
    twostate predicate Searched(input: string, server: string -> Exchange)
      reads this, tabActive, paneActive
    {
      var name := Trim(input);
      var x := server(name);
      if name == [] then
        && unchanged(this) && unchanged(tabActive) && unchanged(paneActive)
      else
        && !loading
        && events == old(events) + FetchEvents(x)
        && (errorVisible <==> Classify(x).Failed?)
        && errorText == (if Classify(x).Failed? then ErrorText(Classify(x).failure, engine) else old(errorText))
        && (Classify(x).Found? ==>
              && displayed == Some(ViewOf(Classify(x).substance, show))
              && tabActive[..] == OnlyActive(0) && paneActive[..] == OnlyActive(0))
        && (Classify(x).Failed? ==>
              displayed == old(displayed) && unchanged(tabActive) && unchanged(paneActive))
    }

    /**
     * The search button: fetches the trimmed input unless it is empty, and
     * re-renders only when a substance came back, so a failed search leaves
     * the previous results displayed.
     */
    method Search(input: string, server: string -> Exchange)
      requires Valid()
      modifies this, tabActive, paneActive
      ensures Searched(input, server)
    {
      var name := Trim(input);
      if name != [] {
        var x := server(name);
        var substance := FetchSubstanceData(x);
        if substance.Some? {
          assert Classify(x).Found?;
          RenderSubstanceData(substance);
        } else {
          assert Classify(x).Failed?;
        }
      }
    }

    /** Enter in the search field clicks the search button; other keys do nothing. */
    method KeyPress(key: string, input: string, server: string -> Exchange)
      requires Valid()
      modifies this, tabActive, paneActive
      ensures key == "Enter" ==> Searched(input, server)
      ensures key != "Enter" ==> unchanged(this) && unchanged(tabActive) && unchanged(paneActive)
    {
      if key == "Enter" {
        Search(input, server);
      }
    }
  }
}

=== FILE: Render.dfy ===
/** What `renderSubstanceData` puts in the results container for one substance. */
module Render {
  import opened Wrappers
  import opened JsText
  import opened Substances
  import opened Lists
  import opened Dosage
  import opened Durations
  import opened Listings

  datatype View = View(
    name: string,
    featured: bool,    // whether the "Featured" badge is shown
    dosage: Pane<DoseRow>,
    duration: Pane<RouteSection>,
    effects: Pane<Badge>,
    interactions: Interactions,
    toxicity: Pane<string>,
    images: Pane<ImageCell>)

  /**
   * The card for one substance. The Dosage and Duration tabs are filled from
   * the same `roas` list, so they show their placeholders together.
   */
  function ViewOf(s: Substance, show: Show): (v: View)
    ensures v.name == s.name && (v.featured <==> s.featured == Some(true))
    ensures v.dosage == DosagePane(s.roas, show) && v.duration == DurationPane(s.roas, show)
    ensures v.dosage.Placeholder? <==> !Listed(s.roas)
    ensures v.duration.Placeholder? <==> v.dosage.Placeholder?
    ensures v.effects == EffectsPane(s) && v.interactions == InteractionsOf(s)
    ensures v.toxicity == ToxicityPane(s) && v.images == ImagesPane(s)
  {
    View(s.name, s.featured == Some(true), DosagePane(s.roas, show), DurationPane(s.roas, show),
         EffectsPane(s), InteractionsOf(s), ToxicityPane(s), ImagesPane(s))
  }

  /** Builds every tab of the card with the loops of the page. */
  method RenderView(s: Substance, show: Show) returns (v: View)
    ensures v == ViewOf(s, show)
  {
    var dosage: Pane<DoseRow>;
    var duration: Pane<RouteSection>;
    if Listed(s.roas) {
      var rows := BuildDosageRows(s.roas.value, show);
      dosage := Filled(rows);
      var sections := BuildDurationSections(s.roas.value, show);
      duration := Filled(sections);
    } else {
      dosage := Placeholder(NoDosage);
      duration := Placeholder(NoDuration);
    }
    var effects := BuildListPane(s.effects, EffectBadge, NoEffects);
    var uncertain := BuildListPane(s.uncertainInteractions, InteractionName, NoUncertain);
    var unsafe := BuildListPane(s.unsafeInteractions, InteractionName, NoUnsafe);
    var dangerous := BuildListPane(s.dangerousInteractions, InteractionName, NoDangerous);
    var toxicity := BuildListPane(s.toxicity, ToxicityItem, NoToxicity);
    var images := BuildListPane(s.images, ImageCellOf, NoImages);
    v := View(s.name, s.featured == Some(true), dosage, duration, effects,
              Interactions(uncertain, unsafe, dangerous), toxicity, images);
  }
}

=== FILE: Substances.dfy ===
/**
 * The Substance record the page requests from the PsychonautWiki GraphQL API,
 * restricted to the fields the page renders. Every field the API may return
 * as `null` is an Option.
 */
module Substances {
  import opened Wrappers
  import opened JsText

  /** A {min, max} dose band (light, common, strong). */
  datatype Band = Band(min: Option<Number>, max: Option<Number>)

  datatype Dose = Dose(
    units: Option<string>,
    threshold: Option<Number>,
    heavy: Option<Number>,
    common: Option<Band>,
    light: Option<Band>,
    strong: Option<Band>)

  /** One phase of a duration: {min, max, units}. */
  datatype Interval = Interval(min: Option<Number>, max: Option<Number>, units: Option<string>)

  /** The seven phases the query requests, in the order the query lists them. */
  datatype Duration = Duration(
    afterglow: Option<Interval>,
    comeup: Option<Interval>,
    duration: Option<Interval>,
    offset: Option<Interval>,
    onset: Option<Interval>,
    peak: Option<Interval>,
    total: Option<Interval>)

  datatype Bioavailability = Bioavailability(min: Option<Number>, max: Option<Number>)

  /** A route of administration. */
  datatype Roa = Roa(
    name: string,
    dose: Option<Dose>,
    duration: Option<Duration>,
    bioavailability: Option<Bioavailability>)

  datatype Effect = Effect(name: string, url: Option<string>)

  datatype Image = Image(image: Option<string>, thumb: Option<string>)

  datatype Interaction = Interaction(name: string)

  datatype Substance = Substance(
    name: string,
    featured: Option<bool>,    // a nullable Boolean: only `true` shows the badge
    toxicity: Option<seq<string>>,
    roas: Option<seq<Roa>>,
    effects: Option<seq<Effect>>,
    images: Option<seq<Image>>,
    uncertainInteractions: Option<seq<Interaction>>,
    unsafeInteractions: Option<seq<Interaction>>,
    dangerousInteractions: Option<seq<Interaction>>)

  /** JavaScript truthiness of a nullable string: present and not empty. */
  predicate Truthy(s: Option<string>) { s.Some? && s.value != "" }
}

=== FILE: Transport.dfy ===
/**
 * What `fetchSubstanceData` makes of one exchange with the API: the first
 * substance, or the message that ends up in the error slot. The checks run
 * in a fixed order: the HTTP status, then a GraphQL `errors` list, then the
 * `substances` list.
 */
module Transport {
  import opened Wrappers
  import opened JsText
  import opened Substances
  import opened Lists

  datatype GraphQLError = GraphQLError(message: Option<string>)

  /** The `data` member of the response. */
  datatype Data = Data(substances: Option<seq<Substance>>)

  /** The response body, as `response.json()` sees it. */
  datatype Body = NotJson | Json(errors: Option<seq<GraphQLError>>, data: Option<Data>)

  /** The API call: `fetch` rejected, or a response with a status and a body. */
  datatype Exchange = Rejected | Answered(status: nat, body: Body)

  /** Exceptions raised by the browser rather than thrown by the page's own code. */
  datatype Fault =
    | FetchRejected       // `fetch` itself failed
    | BodyNotJson         // `response.json()` failed
    | FirstErrorMissing   // `data.errors[0].message` on an empty `errors` list
    | DataMissing         // `data.data.substances` with a null `data`

  datatype Failure =
    | NotOk(status: nat)
    | ApiError(message: Option<string>)
    | NoSubstances
    | Raised(fault: Fault)

  datatype Outcome = Found(substance: Substance) | Failed(failure: Failure)

  /** `response.ok`: a status in the range 200 to 299. */
  predicate Ok(status: nat) { 200 <= status <= 299 }

  const DefaultApiMessage := "Error fetching data"
  const NotFoundMessage := "No substances found with that name"
  const NotOkPrefix := "Network response was not ok: "

  /**
   * The checks of `fetchSubstanceData`, in order. A non-ok failure comes only
   * from a status outside 200-299 and carries that status.
   */
  function Classify(x: Exchange): (r: Outcome)
    ensures r.Failed? && r.failure.NotOk? <==> x.Answered? && !Ok(x.status)
    ensures r.Failed? && r.failure.NotOk? ==> r.failure.status == x.status
  {
    match x
    case Rejected => Failed(Raised(FetchRejected))
    case Answered(status, body) =>
      if !Ok(status) then Failed(NotOk(status))
      else match body
        case NotJson => Failed(Raised(BodyNotJson))
        case Json(errors, data) =>
          // an empty `errors` array is truthy in JavaScript
          if errors.Some? then
            if |errors.value| == 0 then Failed(Raised(FirstErrorMissing))
            else Failed(ApiError(errors.value[0].message))
          else if data.None? then Failed(Raised(DataMissing))
          else if !Listed(data.value.substances) then Failed(NoSubstances)
          else Found(data.value.substances.value[0])
  }

  /** The text `showError` puts in the error slot; `engine` gives the browser's own messages. */
  function ErrorText(f: Failure, engine: Fault -> string): (t: string)
    ensures f.NotOk? ==> t == NotOkPrefix + Decimal(f.status)
    ensures f.ApiError? ==> t == (if Truthy(f.message) then f.message.value else DefaultApiMessage)
    ensures f.NoSubstances? ==> t == NotFoundMessage
    ensures !f.Raised? ==> t != ""
  {
    match f
    case NotOk(status) => NotOkPrefix + Decimal(status)
    case ApiError(m) => if Truthy(m) then m.value else DefaultApiMessage
    case NoSubstances => NotFoundMessage
    case Raised(k) => engine(k)
  }

  /** A search succeeds exactly when every check passes, and yields the first substance. */
  lemma FoundIff(x: Exchange)
    ensures Classify(x).Found? <==>
      && x.Answered? && Ok(x.status) && x.body.Json?
      && x.body.errors.None? && x.body.data.Some? && Listed(x.body.data.value.substances)
    ensures Classify(x).Found? ==> Classify(x).substance == x.body.data.value.substances.value[0]
  {
  }

  /** A status outside 200-299 decides the outcome, whatever the body says. */
  lemma StatusFirst(status: nat, b1: Body, b2: Body)
    requires !Ok(status)
    ensures Classify(Answered(status, b1)) == Classify(Answered(status, b2)) == Failed(NotOk(status))
  {
  }

  /** An `errors` member decides the outcome, whatever `data` holds. */
  lemma ErrorsBeforeSubstances(status: nat, errors: seq<GraphQLError>, d1: Option<Data>, d2: Option<Data>)
    requires Ok(status)
    ensures Classify(Answered(status, Json(Some(errors), d1))) == Classify(Answered(status, Json(Some(errors), d2)))
    ensures |errors| > 0 ==> Classify(Answered(status, Json(Some(errors), d1))) == Failed(ApiError(errors[0].message))
    ensures |errors| == 0 ==> Classify(Answered(status, Json(Some(errors), d1))) == Failed(Raised(FirstErrorMissing))
  {
  }

  /** An ok, error-free answer whose `substances` is null or empty reports that nothing was found. */
  lemma NoSubstancesWhenUnlisted(status: nat, subs: Option<seq<Substance>>)
    requires Ok(status) && !Listed(subs)
    ensures Classify(Answered(status, Json(None, Some(Data(subs))))) == Failed(NoSubstances)
  {
  }

  /**
   * The browser raises in three places: `fetch` rejecting, a body that is
   * not JSON, and reading `substances` from a null `data`.
   */
  lemma BrowserFaults(status: nat)
    requires Ok(status)
    ensures Classify(Rejected) == Failed(Raised(FetchRejected))
    ensures Classify(Answered(status, NotJson)) == Failed(Raised(BodyNotJson))
    ensures Classify(Answered(status, Json(None, None))) == Failed(Raised(DataMissing))
  {
  }

  /** Only the first substance is used: the others are discarded. */
  lemma OnlyFirstSubstance(status: nat, first: Substance, rest: seq<Substance>)
    requires Ok(status)
    ensures Classify(Answered(status, Json(None, Some(Data(Some([first] + rest)))))) == Found(first)
  {
  }

  /** The status code can be read back from the error message of a non-ok response. */
  lemma NotOkMessageCarriesStatus(status: nat, engine: Fault -> string)
    ensures var t := ErrorText(NotOk(status), engine);
      |t| > |NotOkPrefix| && t[..|NotOkPrefix|] == NotOkPrefix
      && (forall i :: |NotOkPrefix| <= i < |t| ==> IsDigit(t[i]))
      && DecimalValue(t[|NotOkPrefix|..]) == status
  {
    var t := ErrorText(NotOk(status), engine);
    assert t[|NotOkPrefix|..] == Decimal(status);
    DecimalRoundTrip(status);
  }
}

=== FILE: Wrappers.dfy ===
/** A value that JavaScript may hand over as `null`. */
module Wrappers {

  datatype Option<+T> = None | Some(value: T)
}
